=== FILE: README.md ===
# Todo service request handlers, modelled in Dafny

This project models the request-decision layer of a small todo CRUD service
written in Go. There are two versions of it. `backend/todo.go` is the main
version: a `TodoServer` with five handlers (list, create, update,
get-by-id, delete-by-id). `todo.go` is an earlier draft with a list
handler, a create handler and an empty lookup stub.

The database is modelled as a table `map<nat, TodoItem>` from primary key to row.
Each handler appears twice:

- a **specification function** (`Backend.AddSpec`, `Backend.UpdateSpec`, …). It
  maps the table, the decoded request and the environment to an `Outcome`: the
  response the client receives and the new table. Its `ensures` clauses state
  the handler's promises: which status comes from which input, when the table
  changes and how, and what never changes.
- a **method** of the class `TodoServer` (or `DraftServer` for the draft). It
  performs the Go handler's steps in the same order. It writes to a
  `ResponseWriter` object and assigns to the `db` field. It is proved equal to
  the specification function: `Outcome(w.Sent(), db) == AddSpec(old(db), …)`.

`Http.ResponseWriter` models net/http's writer:

- the first `WriteHeader`, or the first `Write`, fixes the status and the header
  that are sent;
- later `WriteHeader` calls are ignored, but every `Write` still appends to the
  body;
- a handler that writes nothing answers 200.

`Http.Error` models `http.Error`. It sets the plain-text headers, writes the
status, then writes the message followed by a newline. This matters in
branches that do not return after an error: `UpdateTodoItem` after a decode
error, `AddTodoItem` after a marshal error, and the draft's `addTodoItem`.
There the status stays the first one written, while later steps still run and
still change the table.

Inputs that come from outside the handler are parameters:

- the decoded body is `Decoded(item) | DecodeErr(msg, partial)`; `partial` is
  what the decoder filled in before it failed;
- the path id is `Option<nat>`;
- the clock reading is `now`;
- everything else is an `Env`:
  - the error of the one store write or scan the request makes;
  - a serialisation error;
  - the key the database assigns to a row created with id 0;
  - the error the store reports for a path segment whose query fails.

`BackendFacts` relates several requests:

- any sequence of requests keeps every row under its own id, with a non-empty title;
- rows appear only by create, change only by update (or by a create under a key the database assigned although it was in use), and disappear only by delete;
- round trips: create then get, update then get, delete then get;
- what the repository's tests expect, checked against what the code does.

Points where the code behaves differently from what a reader might expect,
and which the model follows:

- `AddTodoItem` ignores the client's id and uses `uint(time.Now().UnixMilli())`
  (backend/todo.go:74). The repository's tests expect the client id to be kept.
  The tests at todo_test.go:84-87 and todo_test.go:90-101 therefore do not hold
  under the code. `AddCreateTestGetsClockId` and `AddConflictTestGets201` show
  what the code does instead.
- `GetTodoItemById` and `DeleteTodoItemById` never answer 400: a lookup that
  fails answers 404 (backend/todo.go:137-140, 158-161). A path segment that
  `strconv.Atoi` rejects does not always fail, though. This includes integers
  outside the int64 range, such as `99999999999999999999`. gorm runs such a
  segment as a raw SQL condition. A segment that breaks the query (`abc`) fails the lookup and
  gets 404. A segment whose condition holds (`1.5`, `true`, `1=1`, or an integer
  beyond int64, which SQLite reads as true) matches the lowest-id row: GET answers 200 with that row, and DELETE deletes it and
  answers 200. The model's `None` path id covers only the failing case (see
  "## Left out").
- A failed `Create` answers 500 (backend/todo.go:85-87), including one that
  fails on a duplicate key.
- `http.Error` appends a newline, so the fixed bad-request message
  `"Request is not valid\n"` reaches the client as `"Request is not valid\n\n"`.
- An update answers 201, not 200 (backend/todo.go:127), as the update test at
  todo_test.go:145 expects.

## Model

| member | source | states |
|---|---|---|
| `BackendFacts.CreateRejectedExactlyWhenBad` | backend/todo.go:176-179 | a well-formed create is answered 400 with the fixed message exactly when `isBadRequest` (an empty title) holds of its record |
| `Backend.ToUint` | backend/todo.go:74 | the id conversion yields a value below 2^64; it keeps any value in range and wraps every other value modulo 2^64 |
| `Backend.GetAllSpec` | backend/todo.go:51-65 | listing never changes the table; it answers 200 exactly when neither the scan nor the encoding fails, else 500 with the failing call's message; a 200 carries every row in scan order |
| `Backend.TodoServer.GetAllTodos` | backend/todo.go:51-65 | the list handler's response equals `GetAllSpec`; the table is untouched |
| `Backend.AddSpec` | backend/todo.go:67-94 | decode error: 400 with the decoder's message; empty title (`isBadRequest`): 400 with the fixed message; generated id taken: 409, empty body. All three leave the table unchanged, and every 409 leaves it unchanged. A failed create answers 500 with the store's message and stores nothing. A failed encoding after the create answers 500 with its message while the row stays created. The status is always one of 201, 400, 409 and 500. A row is created only past every check with the store accepting it: the payload's title and flag under the clock-derived key. 201 exactly when creation and encoding succeed. Existing rows are never removed, and never overwritten while key assignment is sound |
| `Backend.TodoServer.AddTodoItem` | backend/todo.go:67-94 | the create handler's response and new table equal `AddSpec`; a marshal error after the create leaves a 500 with the row stored |
| `Backend.UpdateChecked` | backend/todo.go:104-128 | id 0 or empty title: 400 with the fixed message; absent id: 404 "record not found". Both leave the table unchanged, and every 404 leaves it unchanged. A failed save or a failed encoding answers 500 with its message. The status is always one of 201, 400, 404 and 500. Otherwise only the addressed row gets the new title and flag, keeping its id; a valid update of an existing row that the store saves stays saved even when encoding then fails with 500. 201 with that row exactly when save and encoding succeed |
| `Backend.UpdateSpec` | backend/todo.go:96-129 | the key set never changes; rows other than the addressed one never change, and no id ever changes; invalid or absent ids leave the table alone, and no 404 changes it; a well-formed request whose save or encoding fails answers 500 with the error's message; the status is always one of 201, 400, 404 and 500; a valid record naming an existing row is saved whenever the store accepts it, whatever status is answered; a decode error fixes the status at 400 with its message first in the body, while the later steps still run; 201 exactly for a well-formed valid update of an existing row |
| `Backend.TodoServer.UpdateTodoItem` | backend/todo.go:96-129 | the update handler's response and new table equal `UpdateSpec`, including the steps taken after a decode error |
| `Backend.GetByIdSpec` | backend/todo.go:131-150 | lookup never changes the table; each 404 and 500 carries the failing call's message ("record not found" for an absent key); 404 exactly when the path id is `None` (a segment whose query fails) or has no row; 200 with that row exactly when it exists and encodes |
| `Backend.TodoServer.GetTodoItemById` | backend/todo.go:131-150 | the lookup handler's response equals `GetByIdSpec`; the table is untouched |
| `Backend.DeleteSpec` | backend/todo.go:152-169 | each 404 and 500 carries the failing call's message ("record not found" for an absent key); 404 exactly when the path id is `None` (a segment whose query fails) or has no row; 200 with an empty body exactly when the row exists and the store deletes it, and then exactly that key is removed; every other answer leaves the table unchanged |
| `Backend.TodoServer.DeleteTodoItemById` | backend/todo.go:152-169 | the delete handler's response and new table equal `DeleteSpec` |
| `Backend.WriteHttpResponse` | backend/todo.go:171-174 | writes the status (kept only if none was written before), then appends the data to the body |
| `Backend.TodoServer.constructor` | backend/todo.go:36-49 | a server whose store was opened on the given table |
| `Store.OrderedRows` | backend/todo.go:52-53 | a full scan returns as many rows as the table holds, position by position the rows of the keys in strictly ascending order |
| `Store.OrderedRowsComplete` | backend/todo.go:52-53 | every stored row appears in a full scan |
| `Store.OrderedRowsSound` | backend/todo.go:52-53 | every row a full scan returns is a stored row |
| `BackendFacts.StepKeepsWellFormed` | backend/todo.go:67-169 | each handler keeps every row stored under its own id with a non-empty title |
| `BackendFacts.RunKeepsWellFormed` | backend/todo.go:67-169 | any sequence of requests keeps that invariant |
| `BackendFacts.StepTransitions` | backend/todo.go:67-169 | a row appears only by create, changes only by update (or by a create whose key the database assigned unsoundly), and disappears only by a delete of its own id |
| `BackendFacts.RunPreservesUntouched` | backend/todo.go:96-169 | a row that no request in a sequence addresses comes out of it unchanged |
| `BackendFacts.CreateThenGet` | backend/todo.go:85-93 | a created row is returned by the create and by a later lookup of its key |
| `BackendFacts.UpdateThenGet` | backend/todo.go:113-127 | after an update, a lookup returns the row with its old id and the payload's title and flag |
| `BackendFacts.DeleteThenGet` | backend/todo.go:157-168 | after a delete, looking up or deleting the same id answers 404 |
| `BackendFacts.ListEmpty` | backend/todo.go:51-65 | listing an empty table answers 200 with an empty array |
| `BackendFacts.ListHoldsRows` | backend/todo.go:51-65 | a listing has one entry per stored row, contains each of them, and holds nothing that is not a stored row |
| `BackendFacts.UpdateSavesDespiteDecodeError` | backend/todo.go:99-119 | after a decode error, a partial record naming an existing row is still saved, under a 400 |
| `BackendFacts.AddCreateTestGetsClockId` | todo_test.go:74-88 | the create test's request is answered with the clock reading as the id, not the posted id 2 |
| `BackendFacts.AddConflictTestGets201` | todo_test.go:90-102 | the conflict test's request creates a second row and answers 201 unless the clock reads 2 or 0; row 2 is untouched |
| `Draft.JsonHeader` | todo.go:25 | the header every draft handler builds holds only Content-Type, with the single value application/json |
| `Draft.GetAllSpec` | todo.go:24-32 | always 200 with the JSON content type and the table unchanged; the rows in scan order, or null when the ignored scan fails |
| `Draft.DraftServer.GetAllTodos` | todo.go:24-32 | the draft's list handler's response equals `Draft.GetAllSpec` |
| `Draft.AddSpec` | todo.go:34-48 | the status is 400 after a decode error, else 409 for a taken id, else 200; a taken id stores nothing; a free id stores the record (even a partly decoded one) under the client's id, or under the assigned key for id 0; a failed create is ignored |
| `Draft.DraftServer.AddTodoItem` | todo.go:34-48 | the draft's create handler's response and new table equal `Draft.AddSpec`, with later statuses ignored |
| `Draft.GetByIdSpec` | todo.go:50-54 | the stub answers 200 with no body, only a Content-Type header, and the table unchanged |
| `Draft.DraftServer.GetTodoItemById` | todo.go:50-54 | the stub's response equals `Draft.GetByIdSpec` |
| `Draft.DraftServer.constructor` | todo.go:62-64 | the package state once main has opened the store on the given table |
| `Draft.AddTwiceConflicts` | todo.go:42-46 | posting the same record twice: the first is stored with 200, the second conflicts and changes nothing |
| `Draft.DecodeErrorStillCreates` | todo.go:37-47 | a body rejected before decoding anything still creates a zero record under the assigned key, while the status is 400 |

## Left out

- gorm and SQLite internals, `initDb`, `AutoMigrate` and both `main` functions. These are database and process startup. The store is a map plus the failure oracles in `Env`.
- Lookup failures other than "not found" (`db.First` returning an I/O error): a lookup is modelled only as presence or absence of the key.
- Path segments that `strconv.Atoi` rejects, including integers outside int64 (`99999999999999999999`). gorm runs such a segment as a raw SQL `WHERE` condition. The model's `None` path id stands only for a segment whose query fails, which answers 404 with the store's message. A segment whose condition holds (`1.5`, `true`, `1=1`, or an integer beyond int64, which SQLite reads as true) matches the lowest-id row: GET answers 200 with that row, and DELETE deletes it and answers 200. The model does not capture this: it reads an integer beyond int64 as `Some(n)`, and answers 404 when no row has key n. A negative number, which finds no row, is also treated as `None`.
- The key the database assigns to a row created with id 0: it is the parameter `Env.autoKey`. The no-overwrite contracts assume it is non-zero and not in use (`Store.Assignable`).
- Row order of a full scan: modelled as ascending key order, which is what SQLite's table scan yields. The store does not promise it.
- `encoding/json`: decoding, the `MarshalIndent` byte layout (four-space indent) and the draft encoder's trailing newline. Decoded payloads and response bodies are values (`Chunk`).
- `time.Now().UnixMilli()`: a clock read, so it is the parameter `now`. Go's `uint` is taken to be 64 bits wide.
- Headers the net/http server adds on its own (Content-Length, a sniffed Content-Type, Date), and its validation of status codes.
- gorilla/mux routing (`registerTodoRoutes`, `RegisterTodoRoutes`), the no-op `middleware` and the CORS wrapper. These are framework wiring; the path id reaches the handlers already extracted.
- The `todoItem` and `dbFilePath` fields of `TodoServer`: the handlers never read them.
- The race between the existence check and the create under concurrent requests: each request is modelled as one atomic step.
- frontend/cypress/e2e/spec.cy.js: a browser script with no request-handling logic.

=== FILE: backend.dfy ===
/**
 * The request handlers of the todo service (backend/todo.go).  Each handler
 * is given twice: as a specification function from the table, the decoded
 * request and the environment to the response and the new table, and as a
 * method of TodoServer that performs the source's steps on the writer and
 * on the table in order, proved to agree with the specification function.
 */
module Backend {
  import opened Wrappers
  import opened Http
  import opened Store

  /** A row of the todo table; its JSON fields are id, title and completed. */
  datatype TodoItem = TodoItem(id: nat, title: string, completed: bool)

  type Table = map<nat, TodoItem>

  /** The fixed body message of a rejected create or update. */
  const BadRequest: string := "Request is not valid\n"

  /** The error message of a lookup by a key that has no row. */
  const RecordNotFound: string := "record not found"

  /** Go's uint is 64 bits wide. */
  const UintModulus: int := 0x1_0000_0000_0000_0000

  /** The conversion uint(n) of a 64-bit signed integer: two's-complement wrap-around. */
  function ToUint(n: int): (u: nat)
    ensures u < UintModulus
    ensures 0 <= n < UintModulus ==> u == n
    ensures (u - n) % UintModulus == 0
  {
    n % UintModulus
  }

  /** A create request is rejected exactly when its title is empty. */
  predicate IsBadRequest(item: TodoItem): (bad: bool)
    ensures bad <==> item.title == []
  {
    |item.title| == 0
  }

  /** Every row is stored under its own id and has a title. */
  predicate WellFormed(t: Table) {
    forall k :: k in t ==> t[k].id == k && t[k].title != []
  }

  /** GetAllTodos: every row, in scan order, or 500 when the scan or the encoding fails. */
  function GetAllSpec(table: Table, env: Env): (o: Outcome<TodoItem>)
    ensures o.table == table
    ensures o.response.status == StatusOK <==> env.storeErr.None? && env.marshalErr.None?
    ensures o.response.status != StatusOK ==> o.response.status == StatusInternalServerError
    ensures o.response.status == StatusOK ==> o.response.body == [JsonList(OrderedRows(table))]
    // the 500 carries the failing call's message
    ensures env.storeErr.Some? ==> o.response == ErrorResponse(env.storeErr.value, StatusInternalServerError)
    ensures env.storeErr.None? && env.marshalErr.Some? ==>
      o.response == ErrorResponse(env.marshalErr.value, StatusInternalServerError)
  {
    if env.storeErr.Some? then Outcome(ErrorResponse(env.storeErr.value, StatusInternalServerError), table)
    else if env.marshalErr.Some? then Outcome(ErrorResponse(env.marshalErr.value, StatusInternalServerError), table)
    else Outcome(Response(StatusOK, map[], [JsonList(OrderedRows(table))]), table)
  }

  /**
   * AddTodoItem.  The client's id is discarded and replaced by the clock
   * reading; a row already under that id is a conflict.
   */
  function AddSpec(table: Table, payload: Decoded<TodoItem>, now: int, env: Env): (o: Outcome<TodoItem>)
    // a malformed body: 400 with the decoder's message, nothing stored
    ensures payload.DecodeErr? ==>
      o.response == ErrorResponse(payload.msg, StatusBadRequest) && o.table == table
    // an empty title: 400 with the fixed message, nothing stored
    ensures payload.Decoded? && payload.item.title == [] ==>
      o.response == ErrorResponse(BadRequest, StatusBadRequest) && o.table == table
    // the generated id is taken: 409 with no body, nothing stored or overwritten
    ensures payload.Decoded? && payload.item.title != [] && ToUint(now) in table ==>
      o.response == Response(StatusConflict, map[], []) && o.table == table
    // a row is created exactly when the request gets past every check and the store accepts it
    ensures o.table != table ==>
      payload.Decoded? && payload.item.title != [] && ToUint(now) !in table && env.storeErr.None?
    ensures o.response.status == StatusCreated <==>
      payload.Decoded? && payload.item.title != [] && ToUint(now) !in table &&
      env.storeErr.None? && env.marshalErr.None?
    // the created row has the payload's title and completed flag under the generated key, and is returned
    ensures var key := CreateKey(ToUint(now), env.autoKey);
      payload.Decoded? && payload.item.title != [] && ToUint(now) !in table && env.storeErr.None? ==>
        o.table == table[key := TodoItem(key, payload.item.title, payload.item.completed)] &&
        (env.marshalErr.None? ==> o.response.body == [Json(o.table[key])])
    // a failed create answers 500 with its message and stores nothing
    ensures payload.Decoded? && payload.item.title != [] && ToUint(now) !in table && env.storeErr.Some? ==>
      o.response == ErrorResponse(env.storeErr.value, StatusInternalServerError) && o.table == table
    // a failed encoding after the create answers 500 with its message, and the row stays created
    ensures (payload.Decoded? && payload.item.title != [] && ToUint(now) !in table &&
             env.storeErr.None? && env.marshalErr.Some?) ==>
        o.response == ErrorResponse(env.marshalErr.value, StatusInternalServerError)
    ensures o.response.status == StatusConflict ==> o.table == table
    ensures o.response.status in {StatusCreated, StatusBadRequest, StatusConflict, StatusInternalServerError}
    // rows already present are never removed, and never overwritten while key assignment is sound
    ensures table.Keys <= o.table.Keys
    ensures ToUint(now) != 0 || Assignable(table, env.autoKey) ==>
      forall k :: k in table ==> o.table[k] == table[k]
  {
    match payload
    case DecodeErr(msg, _) => Outcome(ErrorResponse(msg, StatusBadRequest), table)
    case Decoded(item) =>
      var item := item.(id := ToUint(now));
      if IsBadRequest(item) then Outcome(ErrorResponse(BadRequest, StatusBadRequest), table)
      else if item.id in table then Outcome(Response(StatusConflict, map[], []), table)
      else if env.storeErr.Some? then
        Outcome(ErrorResponse(env.storeErr.value, StatusInternalServerError), table)
      else
        var row := item.(id := CreateKey(item.id, env.autoKey));
        var created := table[row.id := row];
        match env.marshalErr
        // the error is written but the handler goes on: its 201 is ignored and it writes no data
        case Some(e) => Outcome(ErrorResponse(e, StatusInternalServerError), created)
        case None => Outcome(Response(StatusCreated, map[], [Json(row)]), created)
  }

  /** UpdateTodoItem from the validity check on, on a writer nothing has been written to. */
  function UpdateChecked(table: Table, newItem: TodoItem, env: Env): (o: Outcome<TodoItem>)
    ensures o.table.Keys == table.Keys
    ensures newItem.id == 0 || newItem.title == [] ==>
      o.response == ErrorResponse(BadRequest, StatusBadRequest) && o.table == table
    ensures newItem.id != 0 && newItem.title != [] && newItem.id !in table ==>
      o.response == ErrorResponse(RecordNotFound, StatusNotFound) && o.table == table
    ensures o.table != table ==>
      newItem.id != 0 && newItem.title != [] && newItem.id in table && env.storeErr.None? &&
      o.table == table[newItem.id := table[newItem.id].(title := newItem.title, completed := newItem.completed)]
    // a valid update of an existing row that the store saves stays saved, even if encoding then fails
    ensures newItem.id != 0 && newItem.title != [] && newItem.id in table && env.storeErr.None? ==>
      o.table == table[newItem.id := table[newItem.id].(title := newItem.title, completed := newItem.completed)]
    ensures o.response.status == StatusCreated <==>
      newItem.id != 0 && newItem.title != [] && newItem.id in table &&
      env.storeErr.None? && env.marshalErr.None?
    // a failed save or a failed encoding answers 500 with its message
    ensures newItem.id != 0 && newItem.title != [] && newItem.id in table && env.storeErr.Some? ==>
      o.response == ErrorResponse(env.storeErr.value, StatusInternalServerError)
    ensures (newItem.id != 0 && newItem.title != [] && newItem.id in table &&
             env.storeErr.None? && env.marshalErr.Some?) ==>
        o.response == ErrorResponse(env.marshalErr.value, StatusInternalServerError)
    ensures o.response.status == StatusNotFound ==> o.table == table
    ensures o.response.status in {StatusCreated, StatusBadRequest, StatusNotFound, StatusInternalServerError}
    ensures o.response.status == StatusCreated ==>
      o.response.body == [Json(o.table[newItem.id])] &&
      o.table[newItem.id] == TodoItem(table[newItem.id].id, newItem.title, newItem.completed)
  {
    if newItem.id == 0 || |newItem.title| == 0 then
      Outcome(ErrorResponse(BadRequest, StatusBadRequest), table)
    else if newItem.id !in table then
      Outcome(ErrorResponse(RecordNotFound, StatusNotFound), table)
    else
      var item := table[newItem.id].(title := newItem.title, completed := newItem.completed);
      if env.storeErr.Some? then
        Outcome(ErrorResponse(env.storeErr.value, StatusInternalServerError), table)
      else
        // the row was loaded by primary key newItem.id, so Save writes it back there
        var saved := table[newItem.id := item];
        if env.marshalErr.Some? then
          Outcome(ErrorResponse(env.marshalErr.value, StatusInternalServerError), saved)
        else
          Outcome(Response(StatusCreated, map[], [Json(item)]), saved)
  }

  /**
   * UpdateTodoItem.  A decoding error is written but the handler does not
   * return: the status stays 400 (the first one written) while the partly
   * decoded record still goes through the checks, the lookup and the save.
   */
  function UpdateSpec(table: Table, payload: Decoded<TodoItem>, env: Env): (o: Outcome<TodoItem>)
    ensures o.table.Keys == table.Keys
    // only the addressed row changes, and its id never does
    ensures forall k :: k in table && k != payload.Value().id ==> o.table[k] == table[k]
    ensures forall k :: k in table ==> o.table[k].id == table[k].id
    ensures o.table != table ==> var n := payload.Value();
      n.id in table && n.id != 0 && n.title != [] &&
      o.table == table[n.id := table[n.id].(title := n.title, completed := n.completed)]
    // a valid record naming an existing row that the store saves stays saved, whatever is answered
    ensures var n := payload.Value();
      n.id != 0 && n.title != [] && n.id in table && env.storeErr.None? ==>
        o.table == table[n.id := table[n.id].(title := n.title, completed := n.completed)]
    // an invalid record or an absent id: 400 or 404, nothing changes
    ensures payload.Value().id == 0 || payload.Value().title == [] ==>
      o.response.status == StatusBadRequest && o.table == table
    ensures payload.Value().id != 0 && payload.Value().title != [] && payload.Value().id !in table ==>
      o.table == table &&
      o.response.status == (if payload.DecodeErr? then StatusBadRequest else StatusNotFound)
    // a decoding error fixes the status at 400 and its message opens the body
    ensures payload.DecodeErr? ==>
      o.response.status == StatusBadRequest && o.response.header == ErrorHeader(map[]) &&
      |o.response.body| > 0 && o.response.body[0] == Text(payload.msg + "\n")
    // success: 201 with the updated row
    ensures o.response.status == StatusCreated <==>
      payload.Decoded? && payload.item.id != 0 && payload.item.title != [] &&
      payload.item.id in table && env.storeErr.None? && env.marshalErr.None?
    // a well-formed request whose save or encoding fails answers 500 with its message
    ensures (payload.Decoded? && payload.item.id != 0 && payload.item.title != [] &&
             payload.item.id in table && env.storeErr.Some?) ==>
        o.response == ErrorResponse(env.storeErr.value, StatusInternalServerError)
    ensures (payload.Decoded? && payload.item.id != 0 && payload.item.title != [] &&
             payload.item.id in table && env.storeErr.None? && env.marshalErr.Some?) ==>
        o.response == ErrorResponse(env.marshalErr.value, StatusInternalServerError)
    ensures o.response.status == StatusNotFound ==> o.table == table
    ensures o.response.status in {StatusCreated, StatusBadRequest, StatusNotFound, StatusInternalServerError}
    ensures o.response.status == StatusCreated ==>
      payload.Decoded? && payload.item.id in o.table && o.response.body == [Json(o.table[payload.item.id])]
  {
    match payload
    case Decoded(newItem) => UpdateChecked(table, newItem, env)
    case DecodeErr(msg, partial) =>
      var rest := UpdateChecked(table, partial, env);
      Outcome(Response(StatusBadRequest, ErrorHeader(map[]), [Text(msg + "\n")] + rest.response.body), rest.table)
  }

  /** GetTodoItemById: 200 with the row, 404 for any failed lookup. */
  function GetByIdSpec(table: Table, id: Option<nat>, env: Env): (o: Outcome<TodoItem>)
    ensures o.table == table
    ensures o.response.status == StatusNotFound <==> !(id.Some? && id.value in table)
    ensures o.response.status == StatusOK <==> id.Some? && id.value in table && env.marshalErr.None?
    ensures o.response.status == StatusOK ==> o.response.body == [Json(table[id.value])]
    ensures o.response.status in {StatusOK, StatusNotFound, StatusInternalServerError}
    // each error answer carries the failing call's message
    ensures id.None? ==> o.response == ErrorResponse(env.queryErr, StatusNotFound)
    ensures id.Some? && id.value !in table ==> o.response == ErrorResponse(RecordNotFound, StatusNotFound)
    ensures id.Some? && id.value in table && env.marshalErr.Some? ==>
      o.response == ErrorResponse(env.marshalErr.value, StatusInternalServerError)
  {
    match id
    case None => Outcome(ErrorResponse(env.queryErr, StatusNotFound), table)
    case Some(n) =>
      if n !in table then Outcome(ErrorResponse(RecordNotFound, StatusNotFound), table)
      else if env.marshalErr.Some? then
        Outcome(ErrorResponse(env.marshalErr.value, StatusInternalServerError), table)
      else Outcome(Response(StatusOK, map[], [Json(table[n])]), table)
  }

  /** DeleteTodoItemById: removes exactly the addressed row, 404 for any failed lookup. */
  function DeleteSpec(table: Table, id: Option<nat>, env: Env): (o: Outcome<TodoItem>)
    ensures o.response.status == StatusNotFound <==> !(id.Some? && id.value in table)
    ensures o.response.status == StatusOK <==> id.Some? && id.value in table && env.storeErr.None?
    ensures o.response.status == StatusOK ==> o.table == table - {id.value} && o.response.body == []
    ensures o.response.status != StatusOK ==> o.table == table
    ensures o.response.status in {StatusOK, StatusNotFound, StatusInternalServerError}
    // each error answer carries the failing call's message
    ensures id.None? ==> o.response == ErrorResponse(env.queryErr, StatusNotFound)
    ensures id.Some? && id.value !in table ==> o.response == ErrorResponse(RecordNotFound, StatusNotFound)
    ensures id.Some? && id.value in table && env.storeErr.Some? ==>
      o.response == ErrorResponse(env.storeErr.value, StatusInternalServerError)
  {
    match id
    case None => Outcome(ErrorResponse(env.queryErr, StatusNotFound), table)
    case Some(n) =>
      if n !in table then Outcome(ErrorResponse(RecordNotFound, StatusNotFound), table)
      else if env.storeErr.Some? then
        Outcome(ErrorResponse(env.storeErr.value, StatusInternalServerError), table)
      else Outcome(Response(StatusOK, map[], []), table - {n})
  }

  /** writeHttpResponse: the status, then the data. */
  method WriteHttpResponse(w: ResponseWriter<TodoItem>, statusCode: int, data: seq<Chunk<TodoItem>>)
    modifies w
    ensures w.header == old(w.header) && w.body == old(w.body) + data
    ensures old(w.status).None? ==> w.status == Some(statusCode) && w.sentHeader == old(w.header)
    ensures old(w.status).Some? ==> w.status == old(w.status) && w.sentHeader == old(w.sentHeader)
  {
    w.WriteHeader(statusCode);
    w.Write(data);
  }

  /** The server; `db` is the todo table behind its store handle. */
  class TodoServer {
    var db: Table

    /** A server whose store has been opened on a table holding `rows`. */
    constructor (rows: Table)
      ensures db == rows
    {
      db := rows;
    }

    method GetAllTodos(w: ResponseWriter<TodoItem>, env: Env)
      requires w.Fresh()
      modifies w
      ensures Outcome(w.Sent(), db) == GetAllSpec(db, env)
    {
      if env.storeErr.Some? {
        Error(w, env.storeErr.value, StatusInternalServerError);
        return;
      }
      var todos := OrderedRows(db);
      if env.marshalErr.Some? {
        Error(w, env.marshalErr.value, StatusInternalServerError);
        return;
      }
      WriteHttpResponse(w, StatusOK, [JsonList(todos)]);
    }

    method AddTodoItem(w: ResponseWriter<TodoItem>, payload: Decoded<TodoItem>, now: int, env: Env)
      requires w.Fresh()
      modifies this, w
      ensures Outcome(w.Sent(), db) == AddSpec(old(db), payload, now, env)
    {
      var todoItem: TodoItem;
      match payload {
        case DecodeErr(msg, _) =>
          Error(w, msg, StatusBadRequest);
          return;
        case Decoded(item) =>
          todoItem := item;
      }
      todoItem := todoItem.(id := ToUint(now));
      if IsBadRequest(todoItem) {
        Error(w, BadRequest, StatusBadRequest);
        return;
      }
      if todoItem.id in db {
        w.WriteHeader(StatusConflict);
        return;
      } else if env.storeErr.Some? {
        Error(w, env.storeErr.value, StatusInternalServerError);
        return;
      }
      // Create writes the key it stored the row under back into the record
      todoItem := todoItem.(id := CreateKey(todoItem.id, env.autoKey));
      db := db[todoItem.id := todoItem];
      var data: seq<Chunk<TodoItem>> := [];
      if env.marshalErr.Some? {
        Error(w, env.marshalErr.value, StatusInternalServerError);
      } else {
        data := [Json(todoItem)];
      }
      WriteHttpResponse(w, StatusCreated, data);
    }

    method UpdateTodoItem(w: ResponseWriter<TodoItem>, payload: Decoded<TodoItem>, env: Env)
      requires w.Fresh()
      modifies this, w
      ensures Outcome(w.Sent(), db) == UpdateSpec(old(db), payload, env)
    {
      var newItem := payload.Value();
      if payload.DecodeErr? {
        Error(w, payload.msg, StatusBadRequest);
      }
      if newItem.id == 0 || |newItem.title| == 0 {
        Error(w, BadRequest, StatusBadRequest);
        return;
      }
      if newItem.id !in db {
        Error(w, RecordNotFound, StatusNotFound);
        return;
      } else {
        var item := db[newItem.id];
        item := item.(title := newItem.title, completed := newItem.completed);
        if env.storeErr.Some? {
          Error(w, env.storeErr.value, StatusInternalServerError);
          return;
        }
        db := db[newItem.id := item];
        if env.marshalErr.Some? {
          Error(w, env.marshalErr.value, StatusInternalServerError);
          return;
        }
        WriteHttpResponse(w, StatusCreated, [Json(item)]);
      }
    }

    method GetTodoItemById(w: ResponseWriter<TodoItem>, id: Option<nat>, env: Env)
      requires w.Fresh()
      modifies w
      ensures Outcome(w.Sent(), db) == GetByIdSpec(db, id, env)
    {
      if id.None? {
        Error(w, env.queryErr, StatusNotFound);
        return;
      }
      if id.value !in db {
        Error(w, RecordNotFound, StatusNotFound);
        return;
      } else {
        var item := db[id.value];
        if env.marshalErr.Some? {
          Error(w, env.marshalErr.value, StatusInternalServerError);
          return;
        }
        WriteHttpResponse(w, StatusOK, [Json(item)]);
      }
    }

    method DeleteTodoItemById(w: ResponseWriter<TodoItem>, id: Option<nat>, env: Env)
      requires w.Fresh()
      modifies this, w
      ensures Outcome(w.Sent(), db) == DeleteSpec(old(db), id, env)
    {
      if id.None? {
        Error(w, env.queryErr, StatusNotFound);
        return;
      }
      if id.value !in db {
        Error(w, RecordNotFound, StatusNotFound);
        return;
      } else {
        if env.storeErr.Some? {
          Error(w, env.storeErr.value, StatusInternalServerError);
          return;
        }
        db := db - {id.value};
        w.WriteHeader(StatusOK);
      }
    }
  }
}

=== FILE: backend_facts.dfy ===
/**
 * Properties that relate several requests of the todo service: the state
 * machine over rows (Absent -> Present by create, Present -> Present by
 * update, Present -> Absent by delete), the table invariant that every
 * sequence of requests keeps, and the round trips between the handlers.
 */
module BackendFacts {
  import opened Wrappers
  import opened Http
  import opened Store
  import opened Backend

  /** One request, as the router dispatches it, with what it sees of its environment. */
  datatype Request =
    | ListAll(env: Env)
    | Create(payload: Decoded<TodoItem>, now: int, env: Env)
    | Patch(payload: Decoded<TodoItem>, env: Env)
    | Fetch(id: Option<nat>, env: Env)
    | Remove(id: Option<nat>, env: Env)

  function Step(table: Table, req: Request): Outcome<TodoItem> {
    match req
    case ListAll(env) => GetAllSpec(table, env)
    case Create(payload, now, env) => AddSpec(table, payload, now, env)
    case Patch(payload, env) => UpdateSpec(table, payload, env)
    case Fetch(id, env) => GetByIdSpec(table, id, env)
    case Remove(id, env) => DeleteSpec(table, id, env)
  }

  /** The table after serving `reqs` one after the other. */
  function Run(table: Table, reqs: seq<Request>): Table
    decreases |reqs|
  {
    if reqs == [] then table else Run(Step(table, reqs[0]).table, reqs[1..])
  }

  /** Every handler keeps every row under its own id and with a title. */
  lemma StepKeepsWellFormed(table: Table, req: Request)
    requires WellFormed(table)
    ensures WellFormed(Step(table, req).table)
  {
  }

  /** A create is answered with the fixed bad-request error exactly when isBadRequest holds of its record. */
  lemma CreateRejectedExactlyWhenBad(table: Table, item: TodoItem, now: int, env: Env)
    ensures AddSpec(table, Decoded(item), now, env).response == ErrorResponse(BadRequest, StatusBadRequest)
      <==> IsBadRequest(item)
  {
  }

  /** The table invariant holds after any sequence of requests. */
  lemma {:induction false} RunKeepsWellFormed(table: Table, reqs: seq<Request>)
    requires WellFormed(table)
    ensures WellFormed(Run(table, reqs))
    decreases |reqs|
  {
    if reqs != [] {
      StepKeepsWellFormed(table, reqs[0]);
      RunKeepsWellFormed(Step(table, reqs[0]).table, reqs[1..]);
    }
  }

  /** Rows only appear by create, only change by update and only disappear by delete. */
  lemma StepTransitions(table: Table, req: Request, k: nat)
    ensures var t' := Step(table, req).table;
      (k !in table && k in t' ==> req.Create?) &&
      (k in table && k in t' && t'[k] != table[k] ==> req.Patch? || (req.Create? && !Assignable(table, req.env.autoKey))) &&
      (k in table && k !in t' ==> req.Remove? && req.id == Some(k))
  {
  }

  /**
   * Whether a request may change the row under key k: an update or a delete
   * addressing k, or a create whose generated id is 0 (the database then
   * picks the key).
   */
  predicate MayTouch(req: Request, k: nat) {
    match req
    case Create(_, now, _) => ToUint(now) == 0
    case Patch(payload, _) => payload.Value().id == k
    case Remove(id, _) => id == Some(k)
    case _ => false
  }

  /** A row that no request in the sequence may touch comes out of it unchanged. */
  lemma {:induction false} RunPreservesUntouched(table: Table, reqs: seq<Request>, k: nat)
    requires k in table
    requires forall i :: 0 <= i < |reqs| ==> !MayTouch(reqs[i], k)
    ensures k in Run(table, reqs) && Run(table, reqs)[k] == table[k]
    decreases |reqs|
  {
    if reqs != [] {
      var t' := Step(table, reqs[0]).table;
      assert !MayTouch(reqs[0], k);
      assert k in t' && t'[k] == table[k];
      RunPreservesUntouched(t', reqs[1..], k);
    }
  }

  /** A created row is what a later lookup by its id returns. */
  lemma CreateThenGet(table: Table, payload: Decoded<TodoItem>, now: int, env: Env, env': Env)
    requires AddSpec(table, payload, now, env).response.status == StatusCreated
    requires env'.marshalErr.None?
    ensures var o := AddSpec(table, payload, now, env);
      var key := CreateKey(ToUint(now), env.autoKey);
      o.response.body == [Json(TodoItem(key, payload.item.title, payload.item.completed))] &&
      GetByIdSpec(o.table, Some(key), env').response ==
        Response(StatusOK, map[], [Json(TodoItem(key, payload.item.title, payload.item.completed))])
  {
  }

  /** After a successful delete, the same id is not found. */
  lemma DeleteThenGet(table: Table, id: nat, env: Env, env': Env)
    requires DeleteSpec(table, Some(id), env).response.status == StatusOK
    ensures GetByIdSpec(DeleteSpec(table, Some(id), env).table, Some(id), env').response.status == StatusNotFound
    ensures DeleteSpec(DeleteSpec(table, Some(id), env).table, Some(id), env').response.status == StatusNotFound
  {
  }

  /** An update is seen by a later lookup: the id is kept, title and flag come from the payload. */
  lemma UpdateThenGet(table: Table, payload: Decoded<TodoItem>, env: Env, env': Env)
    requires UpdateSpec(table, payload, env).response.status == StatusCreated
    requires env'.marshalErr.None?
    ensures payload.Decoded? &&
      GetByIdSpec(UpdateSpec(table, payload, env).table, Some(payload.item.id), env').response.body ==
        [Json(TodoItem(table[payload.item.id].id, payload.item.title, payload.item.completed))]
  {
  }

  /** Listing an empty table answers 200 with an empty array. */
  lemma ListEmpty(env: Env)
    requires env.storeErr.None? && env.marshalErr.None?
    ensures GetAllSpec(map[], env).response == Response(StatusOK, map[], [JsonList([])])
  {
  }

  /** A listing holds each stored row, and nothing else. */
  lemma ListHoldsRows(table: Table, env: Env, k: nat)
    requires env.storeErr.None? && env.marshalErr.None?
    requires k in table
    ensures var body := GetAllSpec(table, env).response.body;
      |body| == 1 && body[0].JsonList? && |body[0].values| == |table| &&
      (exists i :: 0 <= i < |body[0].values| && body[0].values[i] == table[k]) &&
      (forall i :: 0 <= i < |body[0].values| ==> exists j :: j in table && body[0].values[i] == table[j])
  {
    OrderedRowsComplete(table, k);
    forall i | 0 <= i < |OrderedRows(table)|
      ensures exists j :: j in table && OrderedRows(table)[i] == table[j]
    {
      OrderedRowsSound(table, i);
    }
  }

  /**
   * A decoding error does not stop UpdateTodoItem: when the partly decoded
   * record names an existing row, the row is still saved although the
   * response says 400.
   */
  lemma UpdateSavesDespiteDecodeError(table: Table, msg: string, partial: TodoItem, env: Env)
    requires partial.id != 0 && partial.title != [] && partial.id in table && env.storeErr.None?
    ensures var o := UpdateSpec(table, DecodeErr(msg, partial), env);
      o.response.status == StatusBadRequest &&
      o.table[partial.id] == table[partial.id].(title := partial.title, completed := partial.completed)
  {
  }

  /**
   * The create test posts id 2 to an empty table and expects the row back
   * with id 2; the handler returns it with the clock reading as its id.
   */
  lemma AddCreateTestGetsClockId(now: int, env: Env)
    requires ToUint(now) != 0 && env.storeErr.None? && env.marshalErr.None?
    ensures var o := AddSpec(map[], Decoded(TodoItem(2, "clean room", false)), now, env);
      o.response == Response(StatusCreated, map[], [Json(TodoItem(ToUint(now), "clean room", false))]) &&
      (ToUint(now) != 2 ==> o.response.body != [Json(TodoItem(2, "clean room", false))])
  {
  }

  /**
   * The conflict test posts id 2 over a table holding row 2.  The handler
   * replaces the id by the clock reading, so unless the clock reads 2 the
   * request creates a new row and answers 201, not 409.
   */
  lemma AddConflictTestGets201(now: int, env: Env)
    requires ToUint(now) != 2 && ToUint(now) != 0 && env.storeErr.None? && env.marshalErr.None?
    ensures var table := map[2 := TodoItem(2, "clean room", false)];
      var o := AddSpec(table, Decoded(TodoItem(2, "clean room", false)), now, env);
      o.response == Response(StatusCreated, map[], [Json(TodoItem(ToUint(now), "clean room", false))]) &&
      o.table == map[2 := TodoItem(2, "clean room", false), ToUint(now) := TodoItem(ToUint(now), "clean room", false)]
  {
  }
}

=== FILE: draft.dfy ===
/**
 * The earlier draft of the service (todo.go): a package-level store handle,
 * a list handler, a create handler that keys rows by the client's id, and a
 * lookup handler that is still a stub.  None of them returns early: every
 * status after the first one written is ignored, and store errors are
 * dropped.
 */
module Draft {
  import opened Wrappers
  import opened Http
  import opened Store

  /** A row of the draft's todo table. */
  datatype Todo = Todo(id: nat, title: string, completed: bool)

  type Table = map<nat, Todo>

  /** The header every draft handler adds before anything else. */
  function JsonHeader(): (h: Header)
    ensures h.Keys == {"Content-Type"} && h["Content-Type"] == ["application/json"]
  {
    HeaderAdd(map[], "Content-Type", "application/json")
  }

  /**
   * getAllTodos: always 200.  A failed scan is ignored and leaves the list
   * unset, which encodes as null.
   */
  function GetAllSpec(db: Table, env: Env): (o: Outcome<Todo>)
    ensures o.table == db
    ensures o.response.status == StatusOK && o.response.header == JsonHeader()
    ensures env.storeErr.None? ==> o.response.body == [JsonList(OrderedRows(db))]
    ensures env.storeErr.Some? ==> o.response.body == [JsonNull]
  {
    var listed := if env.storeErr.Some? then JsonNull else JsonList(OrderedRows(db));
    Outcome(Response(StatusOK, JsonHeader(), [listed]), db)
  }

  /**
   * addTodoItem.  A decoding error sets 400 and the handler goes on with the
   * partly decoded record; a taken id is a conflict, otherwise the record is
   * created (a failed create is ignored) and 200 is set.  The first status
   * set is the one sent.
   */
  function AddSpec(db: Table, payload: Decoded<Todo>, env: Env): (o: Outcome<Todo>)
    ensures o.response.header == JsonHeader() && o.response.body == []
    ensures o.response.status ==
      if payload.DecodeErr? then StatusBadRequest
      else if payload.Value().id in db then StatusConflict
      else StatusOK
    // a taken id: nothing is created or overwritten
    ensures payload.Value().id in db ==> o.table == db
    // a free id: the record is stored under the client's id, whether or not decoding failed
    ensures var item := payload.Value();
      item.id !in db && env.storeErr.None? ==>
        var key := CreateKey(item.id, env.autoKey);
        o.table == db[key := item.(id := key)] && (item.id != 0 ==> key == item.id)
    ensures env.storeErr.Some? ==> o.table == db
    // existing rows are never removed, and never overwritten while key assignment is sound
    ensures db.Keys <= o.table.Keys
    ensures payload.Value().id != 0 || Assignable(db, env.autoKey) ==>
      forall k :: k in db ==> o.table[k] == db[k]
  {
    var item := payload.Value();
    var first := if payload.DecodeErr? then Some(StatusBadRequest) else None;
    if item.id in db then
      Outcome(Response(first.GetOr(StatusConflict), JsonHeader(), []), db)
    else
      var key := CreateKey(item.id, env.autoKey);
      var created := if env.storeErr.Some? then db else db[key := item.(id := key)];
      Outcome(Response(first.GetOr(StatusOK), JsonHeader(), []), created)
  }

  /** getTodoItemById: the stub only adds the content type; the server then answers 200 with no body. */
  function GetByIdSpec(db: Table): (o: Outcome<Todo>)
    ensures o.table == db
    ensures o.response.status == StatusOK && o.response.body == []
    ensures o.response.header.Keys == {"Content-Type"} && o.response.header["Content-Type"] == ["application/json"]
  {
    Outcome(Response(StatusOK, JsonHeader(), []), db)
  }

  /** The draft's package-level state: `db` is the todo table behind the global store handle. */
  class DraftServer {
    var db: Table

    /** The package after main has opened the store on a table holding `rows`. */
    constructor (rows: Table)
      ensures db == rows
    {
      db := rows;
    }

    method GetAllTodos(w: ResponseWriter<Todo>, env: Env)
      requires w.Fresh()
      modifies w
      ensures Outcome(w.Sent(), db) == GetAllSpec(db, env)
    {
      w.AddHeader("Content-Type", "application/json");
      var todos: Chunk<Todo> := JsonNull;
      if env.storeErr.None? {
        todos := JsonList(OrderedRows(db));
      }
      w.WriteHeader(StatusOK);
      w.Write([todos]);
    }

    method AddTodoItem(w: ResponseWriter<Todo>, payload: Decoded<Todo>, env: Env)
      requires w.Fresh()
      modifies this, w
      ensures Outcome(w.Sent(), db) == AddSpec(old(db), payload, env)
    {
      w.AddHeader("Content-Type", "application/json");
      var todoItem := payload.Value();
      if payload.DecodeErr? {
        w.WriteHeader(StatusBadRequest);
      }
      if todoItem.id in db {
        w.WriteHeader(StatusConflict);
      } else {
        if env.storeErr.None? {
          // Create writes the key it stored the row under back into the record
          todoItem := todoItem.(id := CreateKey(todoItem.id, env.autoKey));
          db := db[todoItem.id := todoItem];
        }
        w.WriteHeader(StatusOK);
      }
    }

    method GetTodoItemById(w: ResponseWriter<Todo>)
      requires w.Fresh()
      modifies w
      ensures Outcome(w.Sent(), db) == GetByIdSpec(db)
    {
      w.AddHeader("Content-Type", "application/json");
    }
  }

  /** Posting the same record twice: the second post conflicts and the table stays as the first left it. */
  lemma AddTwiceConflicts(db: Table, item: Todo, env: Env, env': Env)
    requires item.id != 0 && item.id !in db && env.storeErr.None?
    ensures var first := AddSpec(db, Decoded(item), env);
      var second := AddSpec(first.table, Decoded(item), env');
      first.response.status == StatusOK && first.table == db[item.id := item] &&
      second.response.status == StatusConflict && second.table == first.table
  {
  }

  /**
   * A body the decoder rejects before filling anything in leaves a zero
   * record; it is still created, under the key the database assigns, while
   * the response says 400.
   */
  lemma DecodeErrorStillCreates(db: Table, msg: string, env: Env)
    requires Assignable(db, env.autoKey) && 0 !in db && env.storeErr.None?
    ensures var o := AddSpec(db, DecodeErr(msg, Todo(0, "", false)), env);
      o.response.status == StatusBadRequest &&
      o.table == db[env.autoKey := Todo(env.autoKey, "", false)] && |o.table| == |db| + 1
  {
  }
}

=== FILE: http.dfy ===
/**
 * The parts of Go's net/http that the handlers rely on: header maps, the
 * response writer (whose status is fixed by the first WriteHeader), http.Error,
 * and the outcome of json.Decoder.Decode.  Response bodies are kept as values
 * (chunks), not as bytes: the JSON byte layout is not modelled.
 */
module Http {
  import opened Wrappers

  const StatusOK: int := 200
  const StatusCreated: int := 201
  const StatusBadRequest: int := 400
  const StatusNotFound: int := 404
  const StatusConflict: int := 409
  const StatusInternalServerError: int := 500

  /** http.Header: a header name maps to its list of values. */
  type Header = map<string, seq<string>>

  /** Header.Add: append a value to the values of `key`. */
  function HeaderAdd(h: Header, key: string, value: string): Header {
    h[key := (if key in h then h[key] else []) + [value]]
  }

  /** Header.Set: make `value` the only value of `key`. */
  function HeaderSet(h: Header, key: string, value: string): Header {
    h[key := [value]]
  }

  /** Header.Del: drop every value of `key`. */
  function HeaderDel(h: Header, key: string): Header {
    h - {key}
  }

  /** The header as http.Error leaves it. */
  function ErrorHeader(h: Header): Header {
    HeaderSet(HeaderSet(HeaderDel(h, "Content-Length"),
                        "Content-Type", "text/plain; charset=utf-8"),
              "X-Content-Type-Options", "nosniff")
  }

  /** One write to the response body: plain text, or the JSON encoding of a value. */
  datatype Chunk<T> = Text(s: string) | Json(value: T) | JsonList(values: seq<T>) | JsonNull

  /** What the client receives: the status, the header as sent, and the body. */
  datatype Response<T> = Response(status: int, header: Header, body: seq<Chunk<T>>)

  /**
   * The result of decoding a request body into a record.  On an error the
   * decoder leaves behind whatever it had filled in (`partial`).
   */
  datatype Decoded<T> = Decoded(item: T) | DecodeErr(msg: string, partial: T) {
    /** The record the handler goes on with, whether or not decoding failed. */
    function Value(): T {
      match this
      case Decoded(item) => item
      case DecodeErr(_, partial) => partial
    }
  }

  /** The response http.Error produces on a writer nothing has been written to. */
  function ErrorResponse<T>(msg: string, code: int): Response<T> {
    Response(code, ErrorHeader(map[]), [Text(msg + "\n")])
  }

  /**
   * http.ResponseWriter.  The first WriteHeader (or the first Write, which
   * implies WriteHeader(200)) fixes the status and takes a snapshot of the
   * header; later WriteHeader calls are ignored, later header changes are not
   * sent, and every Write still appends to the body.
   */
  class ResponseWriter<T> {
    var header: Header
    var status: Option<int>
    var sentHeader: Header
    var body: seq<Chunk<T>>

    constructor ()
      ensures Fresh()
    {
      header, status, sentHeader, body := map[], None, map[], [];
    }

    /** Nothing has been written yet, as when a handler is entered. */
    predicate Fresh()
      reads this
    {
      header == map[] && status == None && sentHeader == map[] && body == []
    }

    /**
     * The response as the client sees it once the handler returns: a handler
     * that wrote no status answers 200 with the header it had built.
     */
    function Sent(): (r: Response<T>)
      reads this
      ensures r.body == body
      ensures status.Some? ==> r.status == status.value && r.header == sentHeader
      ensures status.None? ==> r.status == StatusOK && r.header == header
    {
      match status
      case None => Response(StatusOK, header, body)
      case Some(code) => Response(code, sentHeader, body)
    }

    method AddHeader(key: string, value: string)
      modifies this
      ensures header == HeaderAdd(old(header), key, value)
      ensures status == old(status) && sentHeader == old(sentHeader) && body == old(body)
    {
      header := HeaderAdd(header, key, value);
    }

    method SetHeader(key: string, value: string)
      modifies this
      ensures header == HeaderSet(old(header), key, value)
      ensures status == old(status) && sentHeader == old(sentHeader) && body == old(body)
    {
      header := HeaderSet(header, key, value);
    }

    method DelHeader(key: string)
      modifies this
      ensures header == HeaderDel(old(header), key)
      ensures status == old(status) && sentHeader == old(sentHeader) && body == old(body)
    {
      header := HeaderDel(header, key);
    }

    method WriteHeader(code: int)
      modifies this
      ensures header == old(header) && body == old(body)
      ensures old(status).None? ==> status == Some(code) && sentHeader == old(header)
      ensures old(status).Some? ==> status == old(status) && sentHeader == old(sentHeader)
    {
      if status.None? {
        status := Some(code);
        sentHeader := header;
      }
    }

    method Write(data: seq<Chunk<T>>)
      modifies this
      ensures header == old(header) && body == old(body) + data
      ensures old(status).None? ==> status == Some(StatusOK) && sentHeader == old(header)
      ensures old(status).Some? ==> status == old(status) && sentHeader == old(sentHeader)
    {
      WriteHeader(StatusOK);
      body := body + data;
    }
  }

  /** http.Error: plain-text headers, the status, then the message and a newline. */
  method Error<T>(w: ResponseWriter<T>, msg: string, code: int)
    modifies w
    ensures w.header == ErrorHeader(old(w.header))
    ensures w.body == old(w.body) + [Text(msg + "\n")]
    ensures old(w.status).None? ==> w.status == Some(code) && w.sentHeader == ErrorHeader(old(w.header))
    ensures old(w.status).Some? ==> w.status == old(w.status) && w.sentHeader == old(w.sentHeader)
  {
    w.DelHeader("Content-Length");
    w.SetHeader("Content-Type", "text/plain; charset=utf-8");
    w.SetHeader("X-Content-Type-Options", "nosniff");
    w.WriteHeader(code);
    w.Write([Text(msg + "\n")]);
  }
}

=== FILE: store.dfy ===
/**
 * The persistence store, seen from the handlers: a table from primary key to
 * row, the key the database assigns to a row created without one, the order
 * in which a full scan returns rows, and the environment oracles (store and
 * serialisation failures) that make the error branches reachable.
 */
module Store {
  import opened Wrappers
  import Http

  /**
   * What a request sees of its surroundings.
   * - storeErr: the error returned by the request's one store write or full
   *   scan (Find, Create, Save or Delete), if that call fails;
   * - marshalErr: the error returned when serialising the response, if any;
   * - autoKey: the key the database assigns to a row created with id 0;
   * - queryErr: the error reported for a path id that is None: either a segment
   *   that strconv.Atoi rejects and whose raw query fails (the query's error),
   *   or a negative number, which finds no row ("record not found").
   */
  datatype Env = Env(storeErr: Option<string>, marshalErr: Option<string>, autoKey: nat, queryErr: string)

  /** The response a handler produced and the table it left behind. */
  datatype Outcome<V> = Outcome(response: Http.Response<V>, table: map<nat, V>)

  /** The key a created row is stored under: its own id, or the assigned key when the id is 0. */
  function CreateKey(id: nat, autoKey: nat): nat {
    if id == 0 then autoKey else id
  }

  /** The database never assigns the zero key or a key that is in use. */
  predicate Assignable<V>(table: map<nat, V>, autoKey: nat) {
    autoKey != 0 && autoKey !in table
  }

  lemma {:induction false} MaxExists(s: set<nat>)
    requires s != {}
    ensures exists m :: m in s && forall j :: j in s ==> j <= m
  {
    var x :| x in s;
    if s != {x} {
      MaxExists(s - {x});
      var m :| m in s - {x} && forall j :: j in s - {x} ==> j <= m;
      var top := if x > m then x else m;
      forall j | j in s
        ensures j <= top
      {
        if j != x { assert j in s - {x}; }
      }
      assert top in s;
    } else {
      assert forall j :: j in s ==> j <= x;
    }
  }

  /** The largest key of a non-empty key set. */
  function MaxKey(s: set<nat>): (m: nat)
    requires s != {}
    ensures m in s
    ensures forall j :: j in s ==> j <= m
  {
    MaxExists(s);
    var m :| m in s && forall j :: j in s ==> j <= m;
    m
  }

  /** The keys of `s` in ascending order, each once. */
  function SortedKeys(s: set<nat>): (ks: seq<nat>)
    ensures |ks| == |s|
    ensures forall k :: k in s <==> k in ks
    ensures forall i, j :: 0 <= i < j < |ks| ==> ks[i] < ks[j]
    decreases |s|
  {
    if s == {} then []
    else
      var m := MaxKey(s);
      SortedKeys(s - {m}) + [m]
  }

  /** The rows of a table as a full scan returns them: in ascending key order. */
  function OrderedRows<V>(t: map<nat, V>): (rows: seq<V>)
    ensures |rows| == |t|
    ensures forall i :: 0 <= i < |rows| ==>
      SortedKeys(t.Keys)[i] in t && rows[i] == t[SortedKeys(t.Keys)[i]]
  {
    var ks := SortedKeys(t.Keys);
    seq(|ks|, i requires 0 <= i < |ks| => t[ks[i]])
  }

  /** Every row of the table appears in a full scan. */
  lemma {:induction false} OrderedRowsComplete<V>(t: map<nat, V>, k: nat)
    requires k in t
    ensures exists i :: 0 <= i < |OrderedRows(t)| && OrderedRows(t)[i] == t[k]
  {
    var ks := SortedKeys(t.Keys);
    assert k in ks;
    var i :| 0 <= i < |ks| && ks[i] == k;
    assert OrderedRows(t)[i] == t[k];
  }

  /** Every row a full scan returns is a row of the table. */
  lemma {:induction false} OrderedRowsSound<V>(t: map<nat, V>, i: nat)
    requires i < |OrderedRows(t)|
    ensures exists k :: k in t && OrderedRows(t)[i] == t[k]
  {
  }
}

=== FILE: wrappers.dfy ===
/** The Option datatype used for values that may be absent. */
module Wrappers {
  datatype Option<+T> = None | Some(value: T) {
    /** The carried value, or `default` when there is none. */
    function GetOr(default: T): T {
      match this
      case Some(v) => v
      case None => default
    }
  }
}
